=== FILE: README.md ===
# gorm-advanced-filter, modelled in Dafny

This project models the filter builder of `gorm-advanced-filter` (`main.go`). A `Filter` holds two things:

- a gorm query handle;
- the `encoded` clause log.

Fifteen fluent operations (`Contains` … `After`) each log a `Clause` and attach one `column op ?` predicate to the handle. The predicate is attached with `Where` or with `Or`, chosen by the operator string. `Clear` resets both. `Build` serialises the log to JSON. `Parse` decodes that JSON and replays every clause through a fixed name registry.

The model is functional:

- The handle is the sequence of fragments attached to it. A `Fragment` is a combinator (`And` or `Or`), a `?`-template and a bound value.
- A filter is the immutable record `Filter(query, encoded)`.
- Every method returns the updated record.

Modules:

- `Wrappers` (`wrappers.dfy`): `Option` and `Result`.
- `Text` (`text.dfy`): `strings.ToLower` on ASCII letters.
- `Clauses` (`clauses.dfy`): the operation names, the name registry and the `Clause` record.
- `Translator` (`translator.dfy`):
  - the `parse` helper's OR test and template;
  - a reference table giving each operation's comparison (`Meaning`), the SQL spelling of that comparison (`Token`), and where the `%%` wildcards go (`Placement`, `Wrap`).
- `Filters` (`filter.dfy`): the filter record, `MakeGormAdvancedFilter` (`Make`), the fifteen methods (`Call`), `Clear`, and chains of calls (`Run`).
- `Codec` (`codec.dfy`): `Build` and the `json.Unmarshal` step of `Parse`, on JSON value trees.
- `Parsing` (`parse.dfy`): the replay loop and `Parse`.

`ToSql` returns the handle unchanged. In the model it is simply the `query` field.

Three behaviours of the code are kept exactly as written:

- **Unknown `function_name`.** An unknown name is not skipped. `functions[name]` is nil, and `reflect.ValueOf(nil).Call` panics (main.go:242, 254). The model returns `Panicked(UnknownFunction(name))`. A `null` array entry also panics, with a nil dereference, modelled as `Panicked(NilClause)`.
- **Empty or cleared log.** An empty or cleared log is a nil slice and serialises to `null`, not `[]` (main.go:206, 211).
- **Round trip.** Build then Parse is not lossless for `Equal` (main.go:91-100):
  - `Equal` logs an `Equal` clause and then calls `Is`, which logs a second `Is` clause.
  - Only one fragment is attached for the call.
  - Replaying that log gives `Equal, Is, Is` and two `=` fragments.
  - The model proves exactly when the round trip is lossless: when the chain contains no `Equal` call.

The `parse` helper (main.go:190-198) is `Filters.Attach`, and the clause append that opens every method is `Filters.Log`. Their effect is stated through `Filters.Call` and the `Filters.CallAppends` row.

## Model

| member | source | states |
|---|---|---|
| Clauses.Lookup | main.go:219-235 | the registry returns an operation only for that operation's own name, and returns nothing for a name no operation has |
| Clauses.RegistryCoversNames | main.go:219-235 | each of the fifteen operations is registered under the name it logs, so a logged name dispatches back to the same method |
| Translator.ResolveOrIff | main.go:190-195 | with `strings.ToLower` modelled by `Text.ToLower`, a fragment is OR-attached exactly when the operator is `or`, `oR`, `Or` or `OR`; every other string, including `AND`, the empty string and `or `, means AND |
| Translator.Wrap | main.go:33-88 | the bound value is the given value at offset 0 or 2, with at most two `%` on each side and nothing else |
| Translator.PatternIffWildcard | main.go:25-89 | exactly the LIKE and NOT LIKE operations bind a value that differs from the one given, because it is wrapped in `%%` |
| Translator.TokenReadsBack | main.go:33-187 | each of the nine SQL comparison tokens reads back as its own comparison, so `!=` (IsNot) and `<>` (NotEqual) remain distinct |
| Filters.Make | main.go:260-264 | a new filter keeps the given handle as it is and starts with an empty log |
| Filters.Call | main.go:25-188 | each operation except `Equal` appends one clause carrying its own name and the given value, column and operator. Every operation appends one fragment `column TOKEN ?`, whose token is the comparison `Meaning` gives the operation, spelled by `Token`, and whose bound value carries the operation's wildcards. Nothing already logged or attached changes. `Equal` appends `Equal` and then `Is` |
| Filters.Clear | main.go:204-208 | clearing leaves no attached predicate and an empty log |
| Filters.CallAppends | main.go:190-198 | one call extends the handle by the reference-table fragment `Expected` and the log by its logged clauses |
| Filters.RunAppends | main.go:25-198 | a chain of calls only appends: the handle grows by one fragment per call and the log by the chain's clauses, both in call order |
| Filters.LogOfLength | main.go:91-100 | a chain logs one clause per call plus one extra clause per `Equal` call |
| Filters.ClearThenRun | main.go:204-208 | after `Clear`, the log and the handle hold only what later calls added |
| Filters.AliasesAttachAlike | main.go:91-188 | `At` and `Equal` attach the same fragment as `Is`; `Before` attaches the same fragment as `LessThan`, and `After` the same as `MoreThan` |
| Filters.TestChainEffect | test/query_test.go:190-201 | the mixed chain `Contains … AND`, `After … AND`, `Is … OR` logs three clauses and attaches `name LIKE ?`/`%%Farcha%%` (AND), `birth_date > ?` (AND) and `name = ?` (OR), after what the handle already held |
| Codec.Build | main.go:210-213 | serialising gives `null` exactly when the log is empty, and otherwise an array with one entry per logged clause |
| Codec.Decode | main.go:237-239 | malformed text fails with a syntax error. A top-level `null` decodes to no clauses. Any value that is neither `null` nor an array fails with a type error. An array decodes only if every element is `null` or an object whose known keys hold values of the right type (`null` or a string, or for `group` an array that itself decodes), and then gives one entry per element |
| Codec.DecodeMembersConcat | main.go:237 | an object's members are decoded left to right into one clause: the members after a prefix fill the clause that prefix left, and a failure in the prefix is the result |
| Codec.ClauseRoundTrip | main.go:12-18 | decoding the object encoded from a clause gives that clause back, nested group included |
| Codec.ItemsRoundTrip | main.go:17 | decoding an encoded `[]*Clause` gives back the same entries, nil entries included |
| Codec.BuildDecodes | main.go:210-239 | decoding what `Build` produced gives back the filter's log, entry for entry |
| Parsing.Replay | main.go:241-255 | replay never reports a decode error. When it succeeds, it has kept the handle's earlier fragments and the log's earlier clauses as a prefix |
| Parsing.Parse | main.go:215-258 | `Parse` reports a decode error exactly when decoding fails, and then returns no filter. On success, the given handle is kept as a prefix and is not reset |
| Parsing.ReplaySucceedsIff | main.go:241-255 | replay succeeds exactly when every decoded entry is present and names a registered operation |
| Parsing.ReplayPanicsAtFirst | main.go:241-255 | replay stops at the first entry it cannot dispatch: a nil entry panics with a nil dereference, and an unknown name panics with that name |
| Parsing.ReplayRuns | main.go:241-255 | when every entry dispatches, replay is the chain of registered calls with each entry's value, column and operator, in entry order |
| Parsing.ReplayLogIff | main.go:91-100 | replay reproduces the decoded log (groups aside) if and only if no decoded clause is named `Equal` |
| Parsing.ReplayLogged | main.go:91-100 | replaying the clauses one call logged performs that call again, and for `Equal` performs `Is` once more after it |
| Parsing.ReplayOfLog | main.go:91-100 | replaying a chain's log performs the chain again, with an extra `Is` call after each `Equal` |
| Parsing.BuildParseReplays | main.go:210-258 | `Build` then `Parse` onto any handle equals running the original chain, with each `Equal` expanded to `Equal, Is`, on a fresh filter over that handle |
| Parsing.RoundTripIffNoEqual | main.go:210-258 | `Build` then `Parse` reproduces the original chain exactly if and only if the chain contains no `Equal` call |
| Parsing.EqualReplaysTwice | main.go:91-100 | one `Equal` call logs `Equal, Is` and attaches one `=` fragment. After `Build` and `Parse`, the log reads `Equal, Is, Is` and the handle holds two `=` fragments |
| Parsing.UnknownNamePanics | main.go:241-255 | for every name the registry does not hold (such as `Bogus`) and any column, value and operator, the one-object document `[{"column":…,"function_name":name,"value":…,"operator":…}]` decodes and then panics with that name; the entry is not skipped |
| Parsing.ClearedBuildsNull | main.go:204-213 | a cleared filter serialises to `null`, which parses back to an empty filter on the given handle |
| Parsing.TestChainBuildParse | test/query_test.go:203-220 | the test chain serialises as three clause objects (`Contains`, `After`, `Is` with operators `AND`, `AND`, `OR`). Parsing it onto the filter's own handle appends the three fragments a second time |
| Parsing.ReplayConcat | main.go:241-255 | replaying two concatenated entry lists replays the first list, then the second |
| Parsing.RunConcat | main.go:25-198 | running two concatenated chains runs the first chain, then the second |

## Left out

- The gorm handle is modelled only as the ordered fragments attached to it. `Where`/`Or` semantics, SQL generation and query execution are outside the model. So is whether gorm clones the statement or mutates it in place.
- Filters.Clear: gorm's `Statement.Clauses = {}` drops every clause of the statement, not only WHERE predicates. The model has nothing but predicates, so the whole clause set is represented by the empty fragment sequence.
- Parsing.Parse: a panic returns no filter. Fragments attached to a shared gorm handle before the panicking entry are not modelled.
- Text.ToLower maps only the ASCII letters. This does not affect the OR test or JSON key matching:
  - In Go's simple case mapping, no non-ASCII character lowercases to `o` or `r`.
  - No field tag contains `k` or `s`, the only ASCII letters with non-ASCII case-fold partners.
- JSON is modelled as value trees (`Json`), not as text. The model leaves out:
  - character syntax, escaping and HTML escaping;
  - the replacement of invalid UTF-8 by `json.Marshal`. Strings here are sequences of Unicode characters.
- Codec.DecodeMembers treats a repeated `group` key as replacing the earlier slice. Go decodes into the existing elements.
- Codec.EncodeGroup, Codec.SetField: `Clauses.Clause` keeps `group` as a sequence, so a nil group and an empty non-nil group are the same value. `EncodeGroup` writes both as `null`, and `SetField` decodes both `null` and `[]` to the empty sequence, where Go gives nil for `null` and a non-nil empty slice for `[]`. This changes no behaviour: every clause `Build` serialises comes from an operation method and has a nil group, and replay never reads a decoded group.
- Numbers and booleans are kept only as values of the wrong type (`JNumber`, `JBool`). Their syntax is not modelled.
- The `group` field is decoded and encoded, but no method fills it in or reads it, and replay does not carry it over.
- `Build` ignores the marshal error. Marshalling a `[]*Clause` cannot fail, so the model has no error path there.
- `fmt.Sprintf("%s", x)` in `At`, `Before` and `After` is the identity and is not modelled separately.
- Clauses.Lookup: the registry's size of fifteen is stated as "exactly the fifteen operation names resolve", not as a map cardinality.
- The row counts asserted in `test/query_test.go` depend on an external SQLite file and are not modelled. The tests are used only for their call sequences.

=== FILE: clauses.dfy ===
/** The operation names, the name registry and the serialisable clause record (main.go's `Clause`). */
module Clauses {
  import opened Wrappers

  /** The fifteen filter operations a `Filter` offers. */
  datatype Op =
    | Contains | DoesNotContains | Is | IsNot | StartWith | EndWith | Equal | NotEqual
    | LessThan | MoreThan | LessThanEqual | MoreThanEqual | At | Before | After

  /** The `function_name` under which an operation is logged and looked up. */
  function Name(op: Op): string
  {
    match op
    case Contains => "Contains"
    case DoesNotContains => "DoesNotContains"
    case Is => "Is"
    case IsNot => "IsNot"
    case StartWith => "StartWith"
    case EndWith => "EndWith"
    case Equal => "Equal"
    case NotEqual => "NotEqual"
    case LessThan => "LessThan"
    case MoreThan => "MoreThan"
    case LessThanEqual => "LessThanEqual"
    case MoreThanEqual => "MoreThanEqual"
    case At => "At"
    case Before => "Before"
    case After => "After"
  }

  /** The fixed name-to-operation table `Parse` dispatches through. */
  const Registry: map<string, Op> := map[
    "Contains" := Contains,
    "DoesNotContains" := DoesNotContains,
    "Is" := Is,
    "IsNot" := IsNot,
    "StartWith" := StartWith,
    "EndWith" := EndWith,
    "Equal" := Equal,
    "NotEqual" := NotEqual,
    "LessThan" := LessThan,
    "MoreThan" := MoreThan,
    "LessThanEqual" := LessThanEqual,
    "MoreThanEqual" := MoreThanEqual,
    "At" := At,
    "Before" := Before,
    "After" := After
  ]

  /** `functions[name]`: the operation registered under `name`, or `None` (Go's nil) when there is none. */
  function Lookup(name: string): (r: Option<Op>)
    ensures r.Some? ==> Name(r.value) == name
    ensures r.None? ==> forall op :: Name(op) != name
  {
    if name in Registry then Some(Registry[name]) else None
  }

  /** Every operation is registered under its own name, so a logged name always dispatches back to its operation. */
  lemma RegistryCoversNames(op: Op)
    ensures Lookup(Name(op)) == Some(op)
  {
  }

  /** A logged call. `group` is declared by the source but never filled in or read; a nil entry is `None`. */
  datatype Clause = Clause(column: string, functionName: string, value: string, operator: string, group: seq<Option<Clause>>)

  /** The record an operation method appends: its own name, the arguments as given, and no group. */
  function Record(op: Op, value: string, column: string, operator: string): Clause
  {
    Clause(column, Name(op), value, operator, [])
  }
}

=== FILE: codec.dfy ===
/**
 * `Build`'s serialisation and `Parse`'s decoding, at the level of JSON values.
 * A document is either well-formed JSON, given as its value tree, or malformed
 * text; the character syntax of JSON is not modelled. Encoding follows the
 * field tags of `Clause`; decoding follows what `json.Unmarshal` does when it
 * fills a `[]*Clause`.
 */
module Codec {
  import opened Wrappers
  import opened Text
  import opened Clauses
  import opened Filters

  datatype Json =
    | JNull
    | JBool(b: bool)
    | JNumber(literal: string)
    | JString(str: string)
    | JArray(items: seq<Json>)
    | JObject(members: seq<Member>)

  /** One `"key": value` pair of an object, in document order. */
  datatype Member = Member(key: string, val: Json)

  /** The text handed to `Parse` or returned by `Build`. */
  datatype Document = WellFormed(json: Json) | Malformed

  /** `json.Unmarshal`'s two ways to fail: bad syntax, or a value of the wrong JSON type for its target. */
  datatype DecodeError = SyntaxError | TypeMismatch

  /** A clause object: keys in the struct's field order, `group` as `null` when empty. */
  function EncodeClause(cl: Clause): Json
    decreases cl, 1
  {
    JObject(ClauseMembers(cl.column, cl.functionName, cl.value, cl.operator) + [Member("group", EncodeGroup(cl.group))])
  }

  /** The four string members of a clause object, in the struct's field order. */
  function ClauseMembers(column: string, name: string, value: string, operator: string): seq<Member>
  {
    [Member("column", JString(column)), Member("function_name", JString(name)),
     Member("value", JString(value)), Member("operator", JString(operator))]
  }

  /** A `[]*Clause`: `null` when empty, otherwise an array with `null` for each nil entry. */
  function EncodeGroup(g: seq<Option<Clause>>): Json
    decreases g, 1
  {
    if |g| == 0 then JNull else JArray(EncodeItems(g))
  }

  function EncodeItems(g: seq<Option<Clause>>): (r: seq<Json>)
    ensures |r| == |g|
    ensures forall i :: 0 <= i < |g| ==> r[i] == EncodeItem(g[i])
    decreases g, 0
  {
    if |g| == 0 then [] else [EncodeItem(g[0])] + EncodeItems(g[1..])
  }

  function EncodeItem(item: Option<Clause>): Json
    decreases item
  {
    match item
    case None => JNull
    case Some(cl) => EncodeClause(cl)
  }

  /** The log as the entries of a `[]*Clause`, none of them nil. */
  function Entries(log: seq<Clause>): (r: seq<Option<Clause>>)
    ensures |r| == |log|
    ensures forall i :: 0 <= i < |log| ==> r[i] == Some(log[i])
  {
    seq(|log|, i requires 0 <= i < |log| => Some(log[i]))
  }

  /** `Build`: the log serialised; an empty (nil) log gives `null`, not `[]`. */
  function Build(f: Filter): (d: Document)
    ensures d.WellFormed?
    ensures d.json == JNull <==> f.encoded == []
    ensures f.encoded != [] ==> d.json.JArray? && |d.json.items| == |f.encoded|
  {
    WellFormed(EncodeGroup(Entries(f.encoded)))
  }

  /** The struct fields a JSON key can fill. */
  datatype Field = ColumnField | FunctionNameField | ValueField | OperatorField | GroupField

  /** The field named by a key: its exact tag, or failing that a case-insensitive match of it. */
  function FieldOf(key: string): Option<Field>
  {
    var k := if key in {"column", "function_name", "value", "operator", "group"} then key else ToLower(key);
    if k == "column" then Some(ColumnField)
    else if k == "function_name" then Some(FunctionNameField)
    else if k == "value" then Some(ValueField)
    else if k == "operator" then Some(OperatorField)
    else if k == "group" then Some(GroupField)
    else None
  }

  /** The zero `Clause` a JSON object is decoded into. */
  const Zero := Clause("", "", "", "", [])

  /** Decode one array element of a `[]*Clause`: `null` is a nil entry, an object a clause. */
  function DecodeItem(j: Json): (r: Result<Option<Clause>, DecodeError>)
    ensures j.JNull? ==> r == Ok(None)
    ensures !j.JNull? && !j.JObject? ==> r == Err(TypeMismatch)
    ensures j.JObject? ==> (r.Ok? <==> DecodeMembers(j.members, Zero).Ok?)
    ensures j.JObject? && r.Ok? ==> r.value.Some?
    decreases j, 2
  {
    match j
    case JNull => Ok(None)
    case JObject(ms) =>
      (match DecodeMembers(ms, Zero)
       case Ok(cl) => Ok(Some(cl))
       case Err(e) => Err(e))
    case _ => Err(TypeMismatch)
  }

  /** Decode the elements of a JSON array into a `[]*Clause`, in order. */
  function DecodeItems(items: seq<Json>): (r: Result<seq<Option<Clause>>, DecodeError>)
    ensures r.Ok? <==> forall i :: 0 <= i < |items| ==> DecodeItem(items[i]).Ok?
    ensures r.Ok? ==> |r.value| == |items|
    ensures r.Ok? ==> forall i :: 0 <= i < |items| ==> r.value[i] == DecodeItem(items[i]).value
    decreases items, 2
  {
    if |items| == 0 then Ok([])
    else
      match DecodeItem(items[0])
      case Err(e) => Err(e)
      case Ok(head) =>
        match DecodeItems(items[1..])
        case Err(e) => Err(e)
        case Ok(tail) => Ok([head] + tail)
  }

  /** Fill `acc` from an object's members in order; unknown keys are skipped and later keys overwrite earlier ones. */
  function DecodeMembers(ms: seq<Member>, acc: Clause): (r: Result<Clause, DecodeError>)
    ensures r.Ok? <==> forall i :: 0 <= i < |ms| && FieldOf(ms[i].key).Some? ==> Fits(FieldOf(ms[i].key).value, ms[i].val)
    decreases ms, 2
  {
    if |ms| == 0 then Ok(acc)
    else
      match FieldOf(ms[0].key)
      case None => DecodeMembers(ms[1..], acc)
      case Some(field) =>
        match SetField(acc, field, ms[0].val)
        case Err(e) => Err(e)
        case Ok(next) => DecodeMembers(ms[1..], next)
  }

  /** A value the field accepts: `null`, a string for a string field, or for `group` an array whose elements all decode. */
  predicate Fits(field: Field, v: Json)
    decreases v, 0
  {
    || v.JNull?
    || (v.JString? && field != GroupField)
    || (v.JArray? && field == GroupField && DecodeItems(v.items).Ok?)
  }

  /** Store one value into one field. `null` leaves a string field as it was and empties `group`. */
  function SetField(acc: Clause, field: Field, v: Json): (r: Result<Clause, DecodeError>)
    ensures r.Ok? <==> Fits(field, v)
    decreases v, 3
  {
    match v
    case JNull => Ok(if field == GroupField then acc.(group := []) else acc)
    case JString(s) =>
      (match field
       case ColumnField => Ok(acc.(column := s))
       case FunctionNameField => Ok(acc.(functionName := s))
       case ValueField => Ok(acc.(value := s))
       case OperatorField => Ok(acc.(operator := s))
       case GroupField => Err(TypeMismatch))
    case JArray(items) =>
      if field == GroupField then
        match DecodeItems(items)
        case Err(e) => Err(e)
        case Ok(g) => Ok(acc.(group := g))
      else Err(TypeMismatch)
    case _ => Err(TypeMismatch)
  }

  /** `json.Unmarshal` into a `[]*Clause`: `null` leaves it empty, an array fills it, anything else fails. */
  function Decode(d: Document): (r: Result<seq<Option<Clause>>, DecodeError>)
    ensures d.Malformed? ==> r == Err(SyntaxError)
    ensures d.WellFormed? && d.json == JNull ==> r == Ok([])
    ensures d.WellFormed? && !d.json.JNull? && !d.json.JArray? ==> r == Err(TypeMismatch)
    ensures d.WellFormed? && d.json.JArray? ==> (r.Ok? <==> forall i :: 0 <= i < |d.json.items| ==> DecodeItem(d.json.items[i]).Ok?)
    ensures d.WellFormed? && d.json.JArray? && r.Ok? ==> |r.value| == |d.json.items|
  {
    match d
    case Malformed => Err(SyntaxError)
    case WellFormed(JNull) => Ok([])
    case WellFormed(JArray(items)) => DecodeItems(items)
    case WellFormed(_) => Err(TypeMismatch)
  }

  /** Decoding an encoded clause gives the clause back, nested group included. */
  lemma {:induction false} ClauseRoundTrip(cl: Clause)
    ensures DecodeItem(EncodeClause(cl)) == Ok(Some(cl))
    decreases cl, 1
  {
    GroupRoundTrip(cl.group);
    var head := ClauseMembers(cl.column, cl.functionName, cl.value, cl.operator);
    var tail := [Member("group", EncodeGroup(cl.group))];
    var c4 := cl.(group := []);
    ClauseMembersDecode(cl.column, cl.functionName, cl.value, cl.operator);
    DecodeMembersConcat(head, tail, Zero);
    assert DecodeMembers(tail, c4) == Ok(cl) by {
      assert FieldOf("group") == Some(GroupField);
      assert tail[1..] == [];
      assert SetField(c4, GroupField, EncodeGroup(cl.group)) == Ok(cl);
    }
  }

  /** The four string members decode to the clause they spell, with no group. */
  lemma ClauseMembersDecode(column: string, name: string, value: string, operator: string)
    ensures DecodeMembers(ClauseMembers(column, name, value, operator), Zero) == Ok(Clause(column, name, value, operator, []))
  {
    var ms := ClauseMembers(column, name, value, operator);
    var cl := Clause(column, name, value, operator, []);
    assert FieldOf("column") == Some(ColumnField);
    assert FieldOf("function_name") == Some(FunctionNameField);
    assert FieldOf("value") == Some(ValueField);
    assert FieldOf("operator") == Some(OperatorField);
    assert DecodeMembers(ms[3..], Zero.(column := column, functionName := name, value := value)) == Ok(cl) by {
      assert ms[3..][1..] == [];
    }
    assert DecodeMembers(ms[2..], Zero.(column := column, functionName := name)) == Ok(cl) by {
      assert ms[2..][1..] == ms[3..];
    }
    assert DecodeMembers(ms[1..], Zero.(column := column)) == Ok(cl) by {
      assert ms[1..][1..] == ms[2..];
    }
  }

  /** Decoding members is a left fold: the members of `a + b` fill the clause `a` leaves, unless `a` already failed. */
  lemma {:induction false} DecodeMembersConcat(a: seq<Member>, b: seq<Member>, acc: Clause)
    ensures DecodeMembers(a + b, acc) == (match DecodeMembers(a, acc) case Ok(next) => DecodeMembers(b, next) case Err(e) => Err(e))
    decreases |a|
  {
    if |a| == 0 {
      assert a + b == b;
    } else {
      assert (a + b)[0] == a[0];
      assert (a + b)[1..] == a[1..] + b;
      match FieldOf(a[0].key)
      case None => DecodeMembersConcat(a[1..], b, acc);
      case Some(field) =>
        match SetField(acc, field, a[0].val)
        case Err(_) =>
        case Ok(next) => DecodeMembersConcat(a[1..], b, next);
    }
  }

  /** Decoding an encoded group gives the group back. */
  lemma {:induction false} GroupRoundTrip(g: seq<Option<Clause>>)
    ensures g != [] ==> DecodeItems(EncodeItems(g)) == Ok(g)
    ensures SetField(Zero, GroupField, EncodeGroup(g)).Ok?
    ensures forall acc :: SetField(acc, GroupField, EncodeGroup(g)) == Ok(acc.(group := g))
    decreases g, 1
  {
    ItemsRoundTrip(g);
  }

  lemma {:induction false} ItemsRoundTrip(g: seq<Option<Clause>>)
    ensures DecodeItems(EncodeItems(g)) == Ok(g)
    decreases g, 0
  {
    if |g| > 0 {
      var e := EncodeItems(g);
      assert e[0] == EncodeItem(g[0]) && e[1..] == EncodeItems(g[1..]);
      ItemRoundTrip(g[0]);
      ItemsRoundTrip(g[1..]);
      assert DecodeItems(e) == Ok([g[0]] + g[1..]);
      assert [g[0]] + g[1..] == g;
    }
  }

  lemma {:induction false} ItemRoundTrip(item: Option<Clause>)
    ensures DecodeItem(EncodeItem(item)) == Ok(item)
    decreases item
  {
    match item
    case None =>
    case Some(cl) => ClauseRoundTrip(cl);
  }

  /** `Parse` decodes what `Build` produced back into the very log, entry for entry. */
  lemma BuildDecodes(f: Filter)
    ensures Decode(Build(f)) == Ok(Entries(f.encoded))
  {
    var e := Entries(f.encoded);
    if e != [] {
      ItemsRoundTrip(e);
    }
  }
}

=== FILE: filter.dfy ===
/**
 * The filter accumulator (main.go's `Filter`): the query handle, abstracted as
 * the sequence of fragments attached to it, and the `encoded` clause log.
 * Every operation returns the updated filter instead of mutating it.
 */
module Filters {
  import opened Clauses
  import opened Translator

  datatype Filter = Filter(query: seq<Fragment>, encoded: seq<Clause>)

  /** `MakeGormAdvancedFilter`: bind a new filter to the handle `db` as it is, with an empty log. */
  function Make(db: seq<Fragment>): (f: Filter)
    ensures f.query == db && f.encoded == []
  {
    Filter(db, [])
  }

  /** The `append(filter.encoded, &Clause{...})` that opens every operation method. */
  function Log(f: Filter, op: Op, value: string, column: string, operator: string): Filter
  {
    f.(encoded := f.encoded + [Record(op, value, column, operator)])
  }

  /** The `parse` helper: attach `column expression ?` bound to `value`, with OR or AND per `operator`. */
  function Attach(f: Filter, value: string, column: string, expression: string, operator: string): Filter
  {
    f.(query := f.query + [Fragment(Resolve(operator), Template(column, expression), value)])
  }

  /**
   * The fifteen operation methods. Each logs its own clause and attaches one
   * fragment; `Equal` logs its clause and then calls `Is`, which logs a second one.
   */
  function Call(f: Filter, op: Op, value: string, column: string, operator: string): (g: Filter)
    decreases if op == Equal then 1 else 0
    ensures op != Equal ==> g.encoded == f.encoded + [Record(op, value, column, operator)]
    ensures op == Equal ==> g.encoded == f.encoded + [Record(Equal, value, column, operator), Record(Is, value, column, operator)]
    ensures g.query == f.query + [Expected(op, value, column, operator)]
  {
    var logged := Log(f, op, value, column, operator);
    match op
    case Contains => Attach(logged, "%%" + value + "%%", column, "LIKE", operator)
    case DoesNotContains => Attach(logged, "%%" + value + "%%", column, "NOT LIKE", operator)
    case Is => Attach(logged, value, column, "=", operator)
    case IsNot => Attach(logged, value, column, "!=", operator)
    case StartWith => Attach(logged, value + "%%", column, "LIKE", operator)
    case EndWith => Attach(logged, "%%" + value, column, "LIKE", operator)
    case Equal => Call(logged, Is, value, column, operator)
    case NotEqual => Attach(logged, value, column, "<>", operator)
    case LessThan => Attach(logged, value, column, "<", operator)
    case MoreThan => Attach(logged, value, column, ">", operator)
    case LessThanEqual => Attach(logged, value, column, "<=", operator)
    case MoreThanEqual => Attach(logged, value, column, ">=", operator)
    case At => Attach(logged, value, column, "=", operator)
    case Before => Attach(logged, value, column, "<", operator)
    case After => Attach(logged, value, column, ">", operator)
  }

  /** `Clear`: drop every attached predicate and the whole log. */
  function Clear(f: Filter): (g: Filter)
    ensures g.query == [] && g.encoded == []
  {
    Filter([], [])
  }

  /** One fluent call: an operation and its `(value, column, operator)` arguments. */
  datatype Invocation = Invocation(op: Op, value: string, column: string, operator: string)

  /** A chain of fluent calls, applied left to right. */
  function Run(f: Filter, calls: seq<Invocation>): Filter
    decreases |calls|
  {
    if |calls| == 0 then f
    else Run(Call(f, calls[0].op, calls[0].value, calls[0].column, calls[0].operator), calls[1..])
  }

  /** The clauses one call logs: its own record, followed by an `Is` record when the call is `Equal`. */
  function Logged(c: Invocation): seq<Clause>
  {
    if c.op == Equal then [Record(Equal, c.value, c.column, c.operator), Record(Is, c.value, c.column, c.operator)]
    else [Record(c.op, c.value, c.column, c.operator)]
  }

  /** The clauses a chain of calls logs, in call order. */
  function LogOf(calls: seq<Invocation>): seq<Clause>
    decreases |calls|
  {
    if |calls| == 0 then [] else Logged(calls[0]) + LogOf(calls[1..])
  }

  /** The fragments a chain of calls attaches: one per call, in call order. */
  function FragmentsOf(calls: seq<Invocation>): (r: seq<Fragment>)
    ensures |r| == |calls|
    ensures forall i :: 0 <= i < |calls| ==> r[i] == Expected(calls[i].op, calls[i].value, calls[i].column, calls[i].operator)
    decreases |calls|
  {
    if |calls| == 0 then []
    else [Expected(calls[0].op, calls[0].value, calls[0].column, calls[0].operator)] + FragmentsOf(calls[1..])
  }

  /** Number of `Equal` calls in a chain. */
  function EqualCount(calls: seq<Invocation>): nat
    decreases |calls|
  {
    if |calls| == 0 then 0 else (if calls[0].op == Equal then 1 else 0) + EqualCount(calls[1..])
  }

  /** One call appends its logged clauses and its fragment and changes nothing else. */
  lemma CallAppends(f: Filter, c: Invocation)
    ensures Call(f, c.op, c.value, c.column, c.operator)
            == Filter(f.query + [Expected(c.op, c.value, c.column, c.operator)], f.encoded + Logged(c))
  {
  }

  /** A chain of calls only appends: the log grows by `LogOf(calls)` and the handle by `FragmentsOf(calls)`. */
  lemma {:induction false} RunAppends(f: Filter, calls: seq<Invocation>)
    ensures Run(f, calls) == Filter(f.query + FragmentsOf(calls), f.encoded + LogOf(calls))
    decreases |calls|
  {
    if |calls| > 0 {
      var c := calls[0];
      var g := Call(f, c.op, c.value, c.column, c.operator);
      assert Run(f, calls) == Run(g, calls[1..]);
      CallAppends(f, c);
      RunAppends(g, calls[1..]);
      assert FragmentsOf(calls) == [Expected(c.op, c.value, c.column, c.operator)] + FragmentsOf(calls[1..]);
      assert LogOf(calls) == Logged(c) + LogOf(calls[1..]);
      assert g.query + FragmentsOf(calls[1..]) == f.query + FragmentsOf(calls);
      assert g.encoded + LogOf(calls[1..]) == f.encoded + LogOf(calls);
    }
  }

  /** The log has one clause per call plus one more for every `Equal` call. */
  lemma {:induction false} LogOfLength(calls: seq<Invocation>)
    ensures |LogOf(calls)| == |calls| + EqualCount(calls)
    decreases |calls|
  {
    if |calls| > 0 {
      LogOfLength(calls[1..]);
    }
  }

  /** After `Clear`, the log and the handle hold only what the later calls added. */
  lemma ClearThenRun(f: Filter, calls: seq<Invocation>)
    ensures Run(Clear(f), calls).encoded == LogOf(calls)
    ensures Run(Clear(f), calls).query == FragmentsOf(calls)
  {
    RunAppends(Clear(f), calls);
  }

  /** `At`, `Before`, `After` and `Equal` attach the same fragment as `Is`, `LessThan`, `MoreThan` and `Is`. */
  lemma AliasesAttachAlike(f: Filter, value: string, column: string, operator: string)
    ensures Call(f, At, value, column, operator).query == Call(f, Is, value, column, operator).query
    ensures Call(f, Equal, value, column, operator).query == Call(f, Is, value, column, operator).query
    ensures Call(f, Before, value, column, operator).query == Call(f, LessThan, value, column, operator).query
    ensures Call(f, After, value, column, operator).query == Call(f, MoreThan, value, column, operator).query
  {
    AtAttachesLikeIs(f, value, column, operator);
    EqualAttachesLikeIs(f, value, column, operator);
    BeforeAttachesLikeLessThan(f, value, column, operator);
    AfterAttachesLikeMoreThan(f, value, column, operator);
  }

  /** `At` attaches the fragment `Is` attaches. */
  lemma AtAttachesLikeIs(f: Filter, value: string, column: string, operator: string)
    ensures Call(f, At, value, column, operator).query == Call(f, Is, value, column, operator).query
  {
  }

  /** `Equal` attaches, through its inner `Is` call, the fragment `Is` attaches. */
  lemma EqualAttachesLikeIs(f: Filter, value: string, column: string, operator: string)
    ensures Call(f, Equal, value, column, operator).query == Call(f, Is, value, column, operator).query
  {
  }

  /** `Before` attaches the fragment `LessThan` attaches. */
  lemma BeforeAttachesLikeLessThan(f: Filter, value: string, column: string, operator: string)
    ensures Call(f, Before, value, column, operator).query == Call(f, LessThan, value, column, operator).query
  {
  }

  /** `After` attaches the fragment `MoreThan` attaches. */
  lemma AfterAttachesLikeMoreThan(f: Filter, value: string, column: string, operator: string)
    ensures Call(f, After, value, column, operator).query == Call(f, MoreThan, value, column, operator).query
  {
  }

  /** The chain the repository's multiple-query and build-and-parse tests compose. */
  const TestChain: seq<Invocation> := [
    Invocation(Contains, "Farcha", "name", "AND"),
    Invocation(After, "2000-01-01", "birth_date", "AND"),
    Invocation(Is, "Angger Pangestu", "name", "OR")
  ]

  /** That chain logs `Contains, After, Is` with operators `AND, AND, OR` and attaches these three fragments in order. */
  lemma TestChainEffect(db: seq<Fragment>)
    ensures Run(Make(db), TestChain).encoded
            == [Clause("name", "Contains", "Farcha", "AND", []),
                Clause("birth_date", "After", "2000-01-01", "AND", []),
                Clause("name", "Is", "Angger Pangestu", "OR", [])]
    ensures Run(Make(db), TestChain).query
            == db + [Fragment(And, "name LIKE ?", "%%Farcha%%"),
                     Fragment(And, "birth_date > ?", "2000-01-01"),
                     Fragment(Or, "name = ?", "Angger Pangestu")]
  {
    RunAppends(Make(db), TestChain);
    TestChainLog();
    TestChainFragments();
  }

  /** The clauses the test chain logs. */
  lemma TestChainLog()
    ensures LogOf(TestChain)
            == [Clause("name", "Contains", "Farcha", "AND", []),
                Clause("birth_date", "After", "2000-01-01", "AND", []),
                Clause("name", "Is", "Angger Pangestu", "OR", [])]
  {
    var calls := TestChain;
    assert calls[1..][1..][1..] == [];
    assert LogOf(calls[1..][1..]) == Logged(calls[2]);
    assert LogOf(calls[1..]) == Logged(calls[1]) + Logged(calls[2]);
  }

  /** The fragments the test chain attaches: two AND predicates and one OR predicate. */
  lemma TestChainFragments()
    ensures FragmentsOf(TestChain)
            == [Fragment(And, "name LIKE ?", "%%Farcha%%"),
                Fragment(And, "birth_date > ?", "2000-01-01"),
                Fragment(Or, "name = ?", "Angger Pangestu")]
  {
    var r := FragmentsOf(TestChain);
    ContainsFarchaFragment();
    AfterBirthDateFragment();
    IsAnggerFragment();
    assert r == [r[0], r[1], r[2]];
  }

  /** The test chain's first fragment: a `%%`-wrapped LIKE pattern, attached with AND. */
  lemma ContainsFarchaFragment()
    ensures Expected(Contains, "Farcha", "name", "AND") == Fragment(And, "name LIKE ?", "%%Farcha%%")
  {
    ResolveOrIff("AND");
  }

  /** The test chain's second fragment: a `>` comparison, attached with AND. */
  lemma AfterBirthDateFragment()
    ensures Expected(After, "2000-01-01", "birth_date", "AND") == Fragment(And, "birth_date > ?", "2000-01-01")
  {
    ResolveOrIff("AND");
  }

  /** The test chain's third fragment: an `=` comparison, attached with OR. */
  lemma IsAnggerFragment()
    ensures Expected(Is, "Angger Pangestu", "name", "OR") == Fragment(Or, "name = ?", "Angger Pangestu")
  {
    ResolveOrIff("OR");
  }
}

=== FILE: parse.dfy ===
/**
 * `Parse`: decode a document, then replay every decoded clause, in order,
 * through the name registry onto a filter bound to the given handle.
 * Go's `reflect` call panics on a nil clause or an unregistered name; here
 * that is the `Panicked` outcome, and no filter is returned.
 */
module Parsing {
  import opened Wrappers
  import opened Clauses
  import opened Translator
  import opened Filters
  import opened Codec

  /** Why replay stopped: a `null` array entry (nil dereference) or a name missing from the registry. */
  datatype Panic = NilClause | UnknownFunction(name: string)

  datatype ParseResult = Parsed(filter: Filter) | DecodeFailed(error: DecodeError) | Panicked(reason: Panic)

  /** A decoded entry replay can dispatch: present, and named in the registry. */
  predicate Dispatchable(item: Option<Clause>)
  {
    item.Some? && Lookup(item.value.functionName).Some?
  }

  /** The panic a non-dispatchable entry causes. */
  function Reason(item: Option<Clause>): Panic
  {
    if item.None? then NilClause else UnknownFunction(item.value.functionName)
  }

  /** The replay loop: call the registered method for each entry with `(value, column, operator)`. */
  function Replay(f: Filter, items: seq<Option<Clause>>): (r: ParseResult)
    ensures !r.DecodeFailed?
    ensures r.Parsed? ==> |f.query| <= |r.filter.query| && r.filter.query[..|f.query|] == f.query
    ensures r.Parsed? ==> |f.encoded| <= |r.filter.encoded| && r.filter.encoded[..|f.encoded|] == f.encoded
    decreases |items|
  {
    if |items| == 0 then Parsed(f)
    else
      match items[0]
      case None => Panicked(NilClause)
      case Some(cl) =>
        match Lookup(cl.functionName)
        case None => Panicked(UnknownFunction(cl.functionName))
        case Some(op) =>
          var g := Call(f, op, cl.value, cl.column, cl.operator);
          var r := Replay(g, items[1..]);
          PrefixThrough(f.query, g.query, if r.Parsed? then r.filter.query else g.query);
          PrefixThrough(f.encoded, g.encoded, if r.Parsed? then r.filter.encoded else g.encoded);
          r
  }

  /** A prefix of a prefix is a prefix. */
  lemma PrefixThrough<T>(a: seq<T>, b: seq<T>, c: seq<T>)
    requires |a| <= |b| && b[..|a|] == a
    requires |b| <= |c| && c[..|b|] == b
    ensures |a| <= |c| && c[..|a|] == a
  {
    assert c[..|a|] == c[..|b|][..|a|];
  }

  /** `Parse(db, input)`: decoding finishes before any replay, so a document that fails to decode changes nothing. */
  function Parse(db: seq<Fragment>, input: Document): (r: ParseResult)
    ensures r.DecodeFailed? <==> Decode(input).Err?
    ensures r.DecodeFailed? ==> r.error == Decode(input).error
    ensures r.Parsed? ==> |db| <= |r.filter.query| && r.filter.query[..|db|] == db
  {
    match Decode(input)
    case Err(e) => DecodeFailed(e)
    case Ok(items) => Replay(Make(db), items)
  }

  /** The call a dispatchable entry replays. */
  function InvocationOf(item: Option<Clause>): Invocation
    requires Dispatchable(item)
  {
    Invocation(Lookup(item.value.functionName).value, item.value.value, item.value.column, item.value.operator)
  }

  /** The calls one call's log replays into: the call itself, and for `Equal` the logged `Is` as well. */
  function Expanded(c: Invocation): seq<Invocation>
  {
    if c.op == Equal then [c, Invocation(Is, c.value, c.column, c.operator)] else [c]
  }

  /** The calls a chain's log replays into, each call expanded in order. */
  function Replayed(calls: seq<Invocation>): seq<Invocation>
    decreases |calls|
  {
    if |calls| == 0 then [] else Expanded(calls[0]) + Replayed(calls[1..])
  }

  /** Replay of a concatenation is replay of the first part followed by replay of the second. */
  lemma {:induction false} ReplayConcat(f: Filter, a: seq<Option<Clause>>, b: seq<Option<Clause>>)
    ensures Replay(f, a + b) == (match Replay(f, a) case Parsed(g) => Replay(g, b) case other => other)
    decreases |a|
  {
    if |a| > 0 {
      assert (a + b)[0] == a[0];
      assert (a + b)[1..] == a[1..] + b;
      match a[0]
      case None =>
      case Some(cl) =>
        match Lookup(cl.functionName)
        case None =>
        case Some(op) => ReplayConcat(Call(f, op, cl.value, cl.column, cl.operator), a[1..], b);
    } else {
      assert a + b == b;
    }
  }

  /** Replay succeeds exactly when every entry is present and names a registered operation. */
  lemma {:induction false} ReplaySucceedsIff(f: Filter, items: seq<Option<Clause>>)
    ensures Replay(f, items).Parsed? <==> forall i :: 0 <= i < |items| ==> Dispatchable(items[i])
    decreases |items|
  {
    if |items| > 0 && Dispatchable(items[0]) {
      var cl := items[0].value;
      var op := Lookup(cl.functionName).value;
      ReplaySucceedsIff(Call(f, op, cl.value, cl.column, cl.operator), items[1..]);
      assert forall i :: 1 <= i < |items| ==> items[i] == items[1..][i - 1];
    }
  }

  /** Replay stops at the first entry it cannot dispatch, with that entry's panic. */
  lemma {:induction false} ReplayPanicsAtFirst(f: Filter, items: seq<Option<Clause>>, k: nat)
    requires k < |items| && !Dispatchable(items[k])
    requires forall i :: 0 <= i < k ==> Dispatchable(items[i])
    ensures Replay(f, items) == Panicked(Reason(items[k]))
    decreases k
  {
    if k > 0 {
      var cl := items[0].value;
      var op := Lookup(cl.functionName).value;
      ReplayPanicsAtFirst(Call(f, op, cl.value, cl.column, cl.operator), items[1..], k - 1);
    }
  }

  /** The calls a sequence of dispatchable entries replays, one per entry. */
  function Invocations(items: seq<Option<Clause>>): (r: seq<Invocation>)
    requires forall i :: 0 <= i < |items| ==> Dispatchable(items[i])
    ensures |r| == |items|
    ensures forall i :: 0 <= i < |items| ==> r[i] == InvocationOf(items[i])
    decreases |items|
  {
    if |items| == 0 then [] else [InvocationOf(items[0])] + Invocations(items[1..])
  }

  /** The decoded clauses as the methods would log them: `group` is never carried over. */
  function Stripped(items: seq<Option<Clause>>): (r: seq<Clause>)
    requires forall i :: 0 <= i < |items| ==> items[i].Some?
    ensures |r| == |items|
    ensures forall i :: 0 <= i < |items| ==> r[i] == items[i].value.(group := [])
  {
    seq(|items|, i requires 0 <= i < |items| => items[i].value.(group := []))
  }

  /** When every entry dispatches, replay is the chain of the registered calls, in entry order. */
  lemma {:induction false} ReplayRuns(f: Filter, items: seq<Option<Clause>>)
    requires forall i :: 0 <= i < |items| ==> Dispatchable(items[i])
    ensures Replay(f, items) == Parsed(Run(f, Invocations(items)))
    decreases |items|
  {
    if |items| > 0 {
      var c := InvocationOf(items[0]);
      ReplayRuns(Call(f, c.op, c.value, c.column, c.operator), items[1..]);
      assert Invocations(items)[1..] == Invocations(items[1..]);
    }
  }

  /** The replayed calls contain an `Equal` call exactly when some decoded clause is named `Equal`. */
  lemma {:induction false} InvocationsEqualCount(items: seq<Option<Clause>>)
    requires forall i :: 0 <= i < |items| ==> Dispatchable(items[i])
    ensures EqualCount(Invocations(items)) == 0 <==> forall i :: 0 <= i < |items| ==> items[i].value.functionName != "Equal"
    decreases |items|
  {
    if |items| > 0 {
      var calls := Invocations(items);
      InvocationsEqualCount(items[1..]);
      InvocationsCons(items);
      assert Name(calls[0].op) == items[0].value.functionName;
      assert calls[0].op == Equal <==> items[0].value.functionName == "Equal";
      assert forall i :: 1 <= i < |items| ==> items[i] == items[1..][i - 1];
    }
  }

  /** Without `Equal`, the replayed calls log exactly the decoded clauses, groups aside. */
  lemma {:induction false} InvocationsLog(items: seq<Option<Clause>>)
    requires forall i :: 0 <= i < |items| ==> Dispatchable(items[i])
    requires EqualCount(Invocations(items)) == 0
    ensures LogOf(Invocations(items)) == Stripped(items)
    decreases |items|
  {
    if |items| > 0 {
      var calls := Invocations(items);
      var c := calls[0];
      var cl := items[0].value;
      InvocationsCons(items);
      assert EqualCount(calls) == (if c.op == Equal then 1 else 0) + EqualCount(calls[1..]);
      InvocationsLog(items[1..]);
      assert Logged(c) == [cl.(group := [])] by {
        assert c.op != Equal;
        assert Name(c.op) == cl.functionName;
      }
      assert LogOf(calls) == Logged(c) + LogOf(calls[1..]);
      StrippedCons(items);
    }
  }

  /** The replayed calls of a non-empty entry list: the first entry's call, then the rest's. */
  lemma InvocationsCons(items: seq<Option<Clause>>)
    requires |items| > 0
    requires forall i :: 0 <= i < |items| ==> Dispatchable(items[i])
    ensures Invocations(items)[0] == InvocationOf(items[0])
    ensures Invocations(items)[1..] == Invocations(items[1..])
  {
  }

  /** The stripped clauses of a non-empty entry list: the first entry's, then the rest's. */
  lemma StrippedCons(items: seq<Option<Clause>>)
    requires |items| > 0
    requires forall i :: 0 <= i < |items| ==> items[i].Some?
    ensures Stripped(items) == [items[0].value.(group := [])] + Stripped(items[1..])
  {
  }

  /** Replay reproduces the decoded log, groups aside, if and only if no decoded clause is named `Equal`. */
  lemma ReplayLogIff(f: Filter, items: seq<Option<Clause>>)
    requires forall i :: 0 <= i < |items| ==> Dispatchable(items[i])
    ensures forall i :: 0 <= i < |items| ==> items[i].Some?
    ensures Replay(f, items).Parsed?
    ensures Replay(f, items).filter.encoded == f.encoded + Stripped(items)
            <==> forall i :: 0 <= i < |items| ==> items[i].value.functionName != "Equal"
  {
    var calls := Invocations(items);
    ReplayRuns(f, items);
    RunAppends(f, calls);
    InvocationsEqualCount(items);
    if EqualCount(calls) == 0 {
      InvocationsLog(items);
    }
    LogOfLength(calls);
    if EqualCount(calls) > 0 {
      assert |Replay(f, items).filter.encoded| > |f.encoded + Stripped(items)|;
    }
  }

  /** Replaying the log of a chain of calls performs the chain again, with each `Equal` followed by an extra `Is`. */
  lemma {:induction false} ReplayOfLog(f: Filter, calls: seq<Invocation>)
    ensures Replay(f, Entries(LogOf(calls))) == Parsed(Run(f, Replayed(calls)))
    decreases |calls|
  {
    if |calls| > 0 {
      var c := calls[0];
      var head := Logged(c);
      assert LogOf(calls) == head + LogOf(calls[1..]);
      assert Entries(head + LogOf(calls[1..])) == Entries(head) + Entries(LogOf(calls[1..]));
      ReplayConcat(f, Entries(head), Entries(LogOf(calls[1..])));
      ReplayLogged(f, c);
      ReplayOfLog(Run(f, Expanded(c)), calls[1..]);
      RunConcat(f, Expanded(c), Replayed(calls[1..]));
    }
  }

  /** Replaying what one call logged performs that call again, followed by `Is` when it was `Equal`. */
  lemma ReplayLogged(f: Filter, c: Invocation)
    ensures Replay(f, Entries(Logged(c))) == Parsed(Run(f, Expanded(c)))
  {
    RegistryCoversNames(c.op);
    var e := Entries(Logged(c));
    var g := Call(f, c.op, c.value, c.column, c.operator);
    assert e[0] == Some(Record(c.op, c.value, c.column, c.operator));
    assert Replay(f, e) == Replay(g, e[1..]);
    if c.op == Equal {
      RegistryCoversNames(Is);
      var i := Invocation(Is, c.value, c.column, c.operator);
      var g2 := Call(g, Is, c.value, c.column, c.operator);
      assert e[1..][0] == Some(Record(Is, c.value, c.column, c.operator));
      assert e[1..][1..] == [];
      assert Replay(g, e[1..]) == Replay(g2, e[1..][1..]);
      assert Run(f, [c, i]) == Run(g, [i]) by { assert [c, i][1..] == [i]; }
      assert Run(g, [i]) == g2 by { assert [i][1..] == []; }
    } else {
      assert e[1..] == [];
      assert Run(f, [c]) == g by { assert [c][1..] == []; }
    }
  }

  /** Running a concatenation of chains runs the first and then the second. */
  lemma {:induction false} RunConcat(f: Filter, a: seq<Invocation>, b: seq<Invocation>)
    ensures Run(f, a + b) == Run(Run(f, a), b)
    decreases |a|
  {
    if |a| > 0 {
      assert (a + b)[0] == a[0];
      assert (a + b)[1..] == a[1..] + b;
      RunConcat(Call(f, a[0].op, a[0].value, a[0].column, a[0].operator), a[1..], b);
    } else {
      assert a + b == b;
    }
  }

  /** `Build` then `Parse` replays the original chain onto the new handle, with an extra `Is` after each `Equal`. */
  lemma BuildParseReplays(db: seq<Fragment>, db': seq<Fragment>, calls: seq<Invocation>)
    ensures Parse(db', Build(Run(Make(db), calls))) == Parsed(Run(Make(db'), Replayed(calls)))
  {
    var f := Run(Make(db), calls);
    RunAppends(Make(db), calls);
    assert f.encoded == LogOf(calls);
    BuildDecodes(f);
    assert Parse(db', Build(f)) == Replay(Make(db'), Entries(LogOf(calls)));
    ReplayOfLog(Make(db'), calls);
  }

  /** `Replayed` adds one call per `Equal` and keeps the number of `Equal` calls. */
  lemma {:induction false} ReplayedCounts(calls: seq<Invocation>)
    ensures |Replayed(calls)| == |calls| + EqualCount(calls)
    ensures EqualCount(Replayed(calls)) == EqualCount(calls)
    ensures EqualCount(calls) == 0 ==> Replayed(calls) == calls
    decreases |calls|
  {
    if |calls| > 0 {
      ReplayedCounts(calls[1..]);
      var c := calls[0];
      var head := Expanded(c);
      EqualCountConcat(head, Replayed(calls[1..]));
      if c.op == Equal {
        assert EqualCount(head) == 1 by { assert head[1..][1..] == []; }
      } else {
        assert EqualCount(head) == 0 by { assert head[1..] == []; }
      }
    }
  }

  lemma {:induction false} EqualCountConcat(a: seq<Invocation>, b: seq<Invocation>)
    ensures EqualCount(a + b) == EqualCount(a) + EqualCount(b)
    decreases |a|
  {
    if |a| > 0 {
      assert (a + b)[0] == a[0];
      assert (a + b)[1..] == a[1..] + b;
      EqualCountConcat(a[1..], b);
    } else {
      assert a + b == b;
    }
  }

  /** `Build` then `Parse` reproduces the chain exactly if and only if it contains no `Equal` call. */
  lemma RoundTripIffNoEqual(db: seq<Fragment>, db': seq<Fragment>, calls: seq<Invocation>)
    ensures Parse(db', Build(Run(Make(db), calls))) == Parsed(Run(Make(db'), calls)) <==> EqualCount(calls) == 0
  {
    BuildParseReplays(db, db', calls);
    ReplayedCounts(calls);
    if EqualCount(calls) > 0 {
      RunAppends(Make(db'), calls);
      RunAppends(Make(db'), Replayed(calls));
      LogOfLength(calls);
      LogOfLength(Replayed(calls));
      assert |Run(Make(db'), Replayed(calls)).encoded| > |Run(Make(db'), calls).encoded|;
    }
  }

  /** The replayed chain of one `Equal` call, `Equal, Is`, logs three clauses and attaches two `=` fragments. */
  lemma EqualThenIs(db: seq<Fragment>, value: string, column: string, operator: string)
    ensures Run(Make(db), [Invocation(Equal, value, column, operator), Invocation(Is, value, column, operator)])
            == Filter(db + [Expected(Is, value, column, operator), Expected(Is, value, column, operator)],
                      [Record(Equal, value, column, operator), Record(Is, value, column, operator), Record(Is, value, column, operator)])
  {
    var c := Invocation(Equal, value, column, operator);
    var i := Invocation(Is, value, column, operator);
    var g := Call(Make(db), Equal, value, column, operator);
    assert [c, i][1..] == [i];
    assert [i][1..] == [];
    assert Run(Make(db), [c, i]) == Run(g, [i]);
    assert Run(g, [i]) == Call(g, Is, value, column, operator);
  }

  /** One `Equal` call logs two clauses; after `Build` and `Parse` the log reads `Equal, Is, Is` and holds two `=` fragments. */
  lemma EqualReplaysTwice(db: seq<Fragment>, db': seq<Fragment>, value: string, column: string, operator: string)
    ensures Call(Make(db), Equal, value, column, operator).encoded
            == [Record(Equal, value, column, operator), Record(Is, value, column, operator)]
    ensures Parse(db', Build(Call(Make(db), Equal, value, column, operator)))
            == Parsed(Filter(db' + [Expected(Is, value, column, operator), Expected(Is, value, column, operator)],
                             [Record(Equal, value, column, operator), Record(Is, value, column, operator), Record(Is, value, column, operator)]))
  {
    var c := Invocation(Equal, value, column, operator);
    var i := Invocation(Is, value, column, operator);
    assert Run(Make(db), [c]) == Call(Make(db), Equal, value, column, operator) by { assert [c][1..] == []; }
    assert Replayed([c]) == [c, i] by { assert [c][1..] == []; }
    BuildParseReplays(db, db', [c]);
    EqualThenIs(db', value, column, operator);
  }

  /** A clause naming an unregistered operation makes replay panic; it is not skipped. */
  lemma UnknownNamePanics(db: seq<Fragment>, column: string, name: string, value: string, operator: string)
    requires Lookup(name) == None
    ensures Parse(db, WellFormed(JArray([JObject(ClauseMembers(column, name, value, operator))])))
            == Panicked(UnknownFunction(name))
  {
    var cl := Clause(column, name, value, operator, []);
    var items := [JObject(ClauseMembers(column, name, value, operator))];
    ClauseMembersDecode(column, name, value, operator);
    assert DecodeItem(items[0]) == Ok(Some(cl));
    var d := DecodeItems(items);
    assert d.Ok? && |d.value| == 1 && d.value[0] == Some(cl);
    assert d.value == [Some(cl)];
  }

  /** A cleared filter serialises to `null`, which parses back to an empty filter on the given handle. */
  lemma ClearedBuildsNull(f: Filter, db: seq<Fragment>)
    ensures Build(Clear(f)) == WellFormed(JNull)
    ensures Parse(db, Build(Clear(f))) == Parsed(Make(db))
  {
  }

  /** The repository's build-and-parse test: the log serialises as three clause objects, and parsing it onto the
      filter's own handle appends the three fragments again after the ones already there. */
  lemma TestChainBuildParse(db: seq<Fragment>)
    ensures Build(Run(Make(db), TestChain))
            == WellFormed(JArray([EncodeClause(Clause("name", "Contains", "Farcha", "AND", [])),
                                  EncodeClause(Clause("birth_date", "After", "2000-01-01", "AND", [])),
                                  EncodeClause(Clause("name", "Is", "Angger Pangestu", "OR", []))]))
    ensures Parse(Run(Make(db), TestChain).query, Build(Run(Make(db), TestChain)))
            == Parsed(Filter(db + FragmentsOf(TestChain) + FragmentsOf(TestChain), Run(Make(db), TestChain).encoded))
  {
    TestChainBuilds(db);
    TestChainParses(db);
  }

  /** The test chain serialises as its three clause objects. */
  lemma TestChainBuilds(db: seq<Fragment>)
    ensures Build(Run(Make(db), TestChain))
            == WellFormed(JArray([EncodeClause(Clause("name", "Contains", "Farcha", "AND", [])),
                                  EncodeClause(Clause("birth_date", "After", "2000-01-01", "AND", [])),
                                  EncodeClause(Clause("name", "Is", "Angger Pangestu", "OR", []))]))
  {
    var f := Run(Make(db), TestChain);
    TestChainEffect(db);
    var e := Entries(f.encoded);
    assert EncodeItems(e) == [EncodeItem(e[0]), EncodeItem(e[1]), EncodeItem(e[2])];
  }

  /** Parsing the test chain's document onto the filter's own handle attaches the three fragments again. */
  lemma TestChainParses(db: seq<Fragment>)
    ensures Parse(Run(Make(db), TestChain).query, Build(Run(Make(db), TestChain)))
            == Parsed(Filter(db + FragmentsOf(TestChain) + FragmentsOf(TestChain), Run(Make(db), TestChain).encoded))
  {
    var f := Run(Make(db), TestChain);
    RunAppends(Make(db), TestChain);
    assert EqualCount(TestChain) == 0 by {
      assert TestChain[1..][1..][1..] == [];
    }
    RoundTripIffNoEqual(db, f.query, TestChain);
    RunAppends(Make(f.query), TestChain);
  }

}

=== FILE: text.dfy ===
/** The little string handling the filter needs. */
module Text {

  /** Lower-cases one character. Only the ASCII letters `A`..`Z` change. */
  function LowerChar(c: char): (r: char)
    ensures 'A' <= c <= 'Z' ==> 'a' <= r <= 'z' && r as int == c as int + 32
    ensures !('A' <= c <= 'Z') ==> r == c
  {
    if 'A' <= c <= 'Z' then (c as int + 32) as char else c
  }

  /** `strings.ToLower`, restricted to ASCII case mapping: every character is lowered in place. */
  function ToLower(s: string): (r: string)
    ensures |r| == |s|
    ensures forall i :: 0 <= i < |s| ==> r[i] == LowerChar(s[i])
  {
    if |s| == 0 then "" else [LowerChar(s[0])] + ToLower(s[1..])
  }
}

=== FILE: translator.dfy ===
/**
 * The predicate translator: how an operation's arguments become one fragment
 * attached to the query handle. `Combinator`, `Resolve`, `Fragment` and
 * `Template` model main.go's `parse` helper; `Meaning`, `Token` and `Placement`
 * are the reference table each operation method is checked against.
 */
module Translator {
  import opened Wrappers
  import opened Text
  import opened Clauses

  /** How a fragment joins the predicates already attached: gorm's `Where` or `Or`. */
  datatype Combinator = And | Or

  /** `parse` attaches with OR exactly when the lower-cased operator is `or`. */
  function Resolve(operator: string): Combinator
  {
    if ToLower(operator) == "or" then Or else And
  }

  /** One attached predicate: the combinator, the `?`-template and the bound parameter. */
  datatype Fragment = Fragment(combinator: Combinator, template: string, bound: string)

  /** `fmt.Sprintf("%s %s ?", column, expression)`. */
  function Template(column: string, expression: string): string
  {
    column + " " + expression + " ?"
  }

  /** The comparisons the operations request; the two not-equal spellings are kept apart. */
  datatype Comparison = Like | NotLike | Equals | NotEqualsBang | NotEqualsAngle | Less | Greater | LessOrEqual | GreaterOrEqual

  /** The comparison each operation stands for. `Equal` and `At` mean `Is`; `Before` and `After` mean `LessThan` and `MoreThan`. */
  function Meaning(op: Op): Comparison
  {
    match op
    case Contains => Like
    case DoesNotContains => NotLike
    case Is => Equals
    case IsNot => NotEqualsBang
    case StartWith => Like
    case EndWith => Like
    case Equal => Equals
    case NotEqual => NotEqualsAngle
    case LessThan => Less
    case MoreThan => Greater
    case LessThanEqual => LessOrEqual
    case MoreThanEqual => GreaterOrEqual
    case At => Equals
    case Before => Less
    case After => Greater
  }

  /** The SQL spelling of a comparison. */
  function Token(cmp: Comparison): string
  {
    match cmp
    case Like => "LIKE"
    case NotLike => "NOT LIKE"
    case Equals => "="
    case NotEqualsBang => "!="
    case NotEqualsAngle => "<>"
    case Less => "<"
    case Greater => ">"
    case LessOrEqual => "<="
    case GreaterOrEqual => ">="
  }

  /** Reads an SQL comparison token back; `None` for anything that is not one of the nine. */
  function Reading(token: string): Option<Comparison>
  {
    if token == "LIKE" then Some(Like)
    else if token == "NOT LIKE" then Some(NotLike)
    else if token == "=" then Some(Equals)
    else if token == "!=" then Some(NotEqualsBang)
    else if token == "<>" then Some(NotEqualsAngle)
    else if token == "<" then Some(Less)
    else if token == ">" then Some(Greater)
    else if token == "<=" then Some(LessOrEqual)
    else if token == ">=" then Some(GreaterOrEqual)
    else None
  }

  /** Where an operation puts `%%` wildcards around the bound value. */
  datatype Wildcards = Around | Trailing | Leading | Bare

  function Placement(op: Op): Wildcards
  {
    match op
    case Contains => Around
    case DoesNotContains => Around
    case StartWith => Trailing
    case EndWith => Leading
    case _ => Bare
  }

  /** Number of characters placed before the value. */
  function Lead(p: Wildcards): nat
  {
    if p == Around || p == Leading then 2 else 0
  }

  /** Number of characters placed after the value. */
  function Trail(p: Wildcards): nat
  {
    if p == Around || p == Trailing then 2 else 0
  }

  /** The bound value for placement `p`: `v` itself, with `%%` in front, behind, or both. */
  function Wrap(p: Wildcards, v: string): (r: string)
    ensures |r| == Lead(p) + |v| + Trail(p)
    ensures r[Lead(p)..Lead(p) + |v|] == v
    ensures forall i :: 0 <= i < |r| && !(Lead(p) <= i < Lead(p) + |v|) ==> r[i] == '%'
  {
    match p
    case Around => "%%" + v + "%%"
    case Trailing => v + "%%"
    case Leading => "%%" + v
    case Bare => v
  }

  /** The reference-table fragment for `(value, column, operator)`: the comparison `Meaning` gives the operation, spelled by `Token`, and its wildcards. */
  function Expected(op: Op, value: string, column: string, operator: string): Fragment
  {
    Fragment(Resolve(operator), Template(column, Token(Meaning(op))), Wrap(Placement(op), value))
  }

  /** The OR test accepts exactly the four spellings of `or`; every other operator string means AND. */
  lemma ResolveOrIff(operator: string)
    ensures Resolve(operator) == Or <==> operator == "or" || operator == "oR" || operator == "Or" || operator == "OR"
  {
  }

  /** Every SQL token reads back as the comparison it spells, so distinct comparisons never share a token. */
  lemma TokenReadsBack(cmp: Comparison)
    ensures Reading(Token(cmp)) == Some(cmp)
  {
  }

  /** The pattern-matching operations are exactly those whose bound value differs from the value given. */
  lemma PatternIffWildcard(op: Op, value: string)
    ensures Meaning(op) == Like || Meaning(op) == NotLike <==> Wrap(Placement(op), value) != value
  {
  }
}

=== FILE: wrappers.dfy ===
/** Failure-carrying values used across the model. */
module Wrappers {

  /** A present or absent value; `None` stands for a Go nil pointer or a missing map entry. */
  datatype Option<+T> = None | Some(value: T)

  /** The value of a computation that can fail with an error of type `E`. */
  datatype Result<+T, +E> = Ok(value: T) | Err(error: E)
}
